=== FILE: README.md ===
# syncbot core, modelled in Dafny

syncbot copies a Misskey user's notes to a Mastodon account. It fetches the
user's notes and keeps the ones that are not replies, renotes or mentions. It
downloads each kept note's attachments from Misskey and uploads them to
Mastodon, then posts a status with the note's text, content warning and
visibility (translated into Mastodon's terms). It runs in one of two modes:

- a one-shot batch (`crosspost`);
- a continuous stream (`main` driving `MisskeyClient.stream_notes`). This mode
  records each observed note's id as the cursor and in a state file, and stops
  on a signal.

The model follows `src/syncbot/__init__.py` module by module:

| module | file | what it holds |
|---|---|---|
| `Wrappers` | `wrappers.dfy` | `Option`, and `Result` for a network call that can fail |
| `Notes` | `notes.dfy` | the note as JSON sees it (a key is absent, `null` or present), the eligibility filter, the visibility translation |
| `Ports` | `ports.dfy` | string helpers (`rstrip`, `lstrip`), the attachment URL rule, request payloads, the trace of calls (`Effect`), the `MisskeyClient` class with its `_running` flag |
| `Attachments` | `attachments.dfy` | `process_misskey_files` as a loop, with the specification it meets |
| `Crossposting` | `crosspost.dfy` | the handling of one note, and the batch `crosspost` |
| `Streaming` | `streaming.dfy` | the generator and `main` loop as a pure state machine (`Step`/`Run`), and the `Daemon` class that runs it in place |
| `Settings` | `settings.dfy` | `load_config`: environment, configuration file, validation, state file |

The network, the clock and the file system are inputs:

- Every answer the program could get is an input. For one attachment, a
  `Transfer` holds the download's and the upload's results. For one note, a
  `Delivery` holds its transfers and the `create_status` result. A fetched note
  travels with its delivery as an `Arrival`. The continuous mode reads a script
  of `Event`s: a signal, or the answer to one poll.
- Every call the program makes is recorded, in order, as an `Effect`: fetch,
  download, upload, create status, sleep, save state. The contracts speak
  about that trace.
- `load_config` receives the environment as a map of the variables that are
  set. It receives the file system as two inputs. The first is a map from a
  path to the JSON object in a readable, well-formed file. The second is the
  set of paths whose file exists but cannot be opened or decoded as UTF-8
  text. A path in neither is a file that is missing or is not valid JSON.

## Model

| member | source | states |
|---|---|---|
| Notes.ShouldCrosspost | src/syncbot/__init__.py:174-192 | A note is crossposted exactly when four things hold. `replyId` and `renoteId` are each missing or null. `mentions`, when present, is empty. `text`, when present, holds no '@'. |
| Notes.MastodonVisibility | src/syncbot/__init__.py:194-202 | public→public, followers→private, specified→direct, home→unlisted. Any other value becomes public. The result is always one of Mastodon's four values. |
| Notes.NoteVisibility | src/syncbot/__init__.py:263-265 | A missing or null `visibility` gives "public". Otherwise the value is translated as above. |
| Notes.VisibilityInjectiveOffPublic | src/syncbot/__init__.py:196-202 | Two Misskey values that reach the same non-public Mastodon value are equal. |
| Notes.PlainHandleExcluded | src/syncbot/__init__.py:188-190 | A note with no structured mentions but the text "hi @bob" is not crossposted. |
| Notes.EmptyNoteEligible | src/syncbot/__init__.py:174-192 | A note with no markers and no text is crossposted. This holds whether its keys are missing or null, and for an empty text too. |
| Ports.RStrip | src/syncbot/__init__.py:44 | The result is a prefix of the input that does not end in the character. Everything removed is that character. |
| Ports.LStrip | src/syncbot/__init__.py:78 | The result is a suffix of the input that does not start with the character. Everything removed is that character. |
| Ports.RStripIdempotent | src/syncbot/__init__.py:44 | Stripping a second time changes nothing. |
| Ports.AttachmentUrl | src/syncbot/__init__.py:77-78 | A URL starting with "http" is kept. Any other URL becomes the instance, one '/', and the URL without its leading slashes. |
| Ports.AttachmentUrlIdempotent | src/syncbot/__init__.py:77-78 | For an instance starting with "http", a rewritten URL is not rewritten again. |
| Ports.SinceIdParam | src/syncbot/__init__.py:70-71 | `sinceId` is sent exactly when the cursor is set and non-empty, and then it is the cursor. |
| Ports.StatusBody | src/syncbot/__init__.py:159-171 | The body always has status, visibility and content type "text/markdown". A null text is sent as null. `media_ids` is present exactly when there are ids. `spoiler_text` is present exactly when the warning is non-empty. |
| Ports.UploadFields | src/syncbot/__init__.py:147-149 | The form has a description exactly when one is given and non-empty. |
| Ports.MastodonApiBase | src/syncbot/__init__.py:116-119 | The base is the instance without trailing slashes, followed by "/api/v1". |
| Ports.MisskeyClient.constructor | src/syncbot/__init__.py:43-47 | The instance loses its trailing slashes, the API base is the instance plus "/api", and the client starts running. |
| Ports.MisskeyClient.StopStreaming | src/syncbot/__init__.py:108-110 | The running flag is cleared. |
| Attachments.FileEffects | src/syncbot/__init__.py:212-230 | The calls for one attachment. One without a usable URL sends nothing. One with a URL first downloads from its normalised URL. |
| Attachments.UploadedIds | src/syncbot/__init__.py:210-232 | The media ids collected, attachment by attachment. There are never more ids than attachments. |
| Attachments.TransferFile | src/syncbot/__init__.py:212-230 | One attachment's `try` block yields an id exactly when it has a URL and both transfers succeed, and then the id is the upload's answer. Its calls are `FileEffects`. |
| Attachments.TransferEffects | src/syncbot/__init__.py:212-232 | The calls for a list of attachments, attachment after attachment. There is no call exactly when no attachment has a URL. |
| Attachments.ProcessFiles | src/syncbot/__init__.py:204-232 | The loop returns `UploadedIds` and records `TransferEffects` for the given answers. |
| Attachments.SucceededAtOrdered | src/syncbot/__init__.py:210-232 | There is one media id per successful attachment, and the positions of the successes strictly increase, so the ids keep the attachments' order. |
| Attachments.SucceededAtExactly | src/syncbot/__init__.py:212-230 | An attachment contributes an id exactly when it has a URL and both its download and its upload succeed. |
| Attachments.UploadedIdsAt | src/syncbot/__init__.py:224 | The k-th media id is the upload answer of the k-th successful attachment. |
| Attachments.UploadedIdsAppend | src/syncbot/__init__.py:212-232 | The ids of two lists of attachments are the ids of each list, concatenated. |
| Attachments.DownloadsAppend | src/syncbot/__init__.py:215-217 | The downloads of two traces are the downloads of each trace, concatenated. |
| Attachments.EveryAttachmentAttempted | src/syncbot/__init__.py:212-217 | Every attachment that has a URL is downloaded once, in order, from its normalised URL, whatever happens to the others. |
| Attachments.FileDownloads | src/syncbot/__init__.py:212-217 | One attachment is downloaded once, from its normalised URL, exactly when it has a URL. |
| Attachments.SecondDownloadFails | src/syncbot/__init__.py:212-232 | With three attachments where the second download fails and the other two transfers succeed, the result is the ids of the first and third, in that order. |
| Crossposting.Files | src/syncbot/__init__.py:255 | The attachments transferred are the note's `files` list when the key is present and not null, and none otherwise. |
| Crossposting.StatusFor | src/syncbot/__init__.py:261-267 | The `create_status` arguments. The text is "" when the key is missing, null when it is null, and the note's text otherwise. The media ids are passed through. The visibility is the note's mapped visibility (`NoteVisibility`), one of Mastodon's four. A content warning is passed to `create_status` exactly when `cw` holds a value, and it is that value unchanged (an empty one is then dropped from the request body). |
| Crossposting.NoteEffects | src/syncbot/__init__.py:251-276 | The calls for one note. An ineligible note makes none, and an eligible one always makes some. |
| Crossposting.BatchEffects | src/syncbot/__init__.py:247-276 | The calls for a batch, note after note. The batch makes no call exactly when none of its notes is eligible. |
| Crossposting.HandleNote | src/syncbot/__init__.py:251-276 | One note's handling records exactly `NoteEffects`. |
| Crossposting.Crosspost | src/syncbot/__init__.py:235-279 | It fetches once, with the configured user, limit and `sinceId` rule. It handles every fetched note in order and returns the first note's id (none for an empty batch). A failed fetch raises. |
| Crossposting.StatusRequestsAppend | src/syncbot/__init__.py:269 | The statuses in two traces are those of each trace, concatenated. |
| Crossposting.TransfersCreateNoStatus | src/syncbot/__init__.py:204-232 | Attachment transfers create no status. |
| Crossposting.FileCreatesNoStatus | src/syncbot/__init__.py:212-230 | One attachment's transfer creates no status. |
| Crossposting.NoStatusWithoutCreate | src/syncbot/__init__.py:269 | A trace without a create call holds no status. |
| Crossposting.NoteStatusRequests | src/syncbot/__init__.py:251-269 | An eligible note creates exactly one status: its text (default ""), its successful media ids, its translated visibility and its `cw`. An ineligible note creates none. |
| Crossposting.BatchStatusRequests | src/syncbot/__init__.py:247-276 | The statuses a batch creates are those of its eligible notes, in feed order, whatever failed. |
| Crossposting.BatchEffectsSnoc | src/syncbot/__init__.py:247-276 | One more note of a batch adds its own calls after those of the notes before it. |
| Crossposting.BatchEffectsAppend | src/syncbot/__init__.py:247-276 | Handling two batches in turn is handling their concatenation. |
| Crossposting.PauseOnlyAfterSuccess | src/syncbot/__init__.py:269-276 | After a successful status the trace ends with the configured pause. After a failed one it ends with the create call, with no pause. |
| Crossposting.PlainNoteCrossposted | src/syncbot/__init__.py:251-269 | A plain "hello world" note with home visibility is posted as unlisted, with no `media_ids` and no `spoiler_text` in the body. |
| Streaming.IsNew | src/syncbot/__init__.py:99 | A note whose id equals the cursor is skipped, and every other note is yielded. |
| Streaming.Stream | src/syncbot/__init__.py:97-101 | The generator's walk over one fetched batch. It yields at most the batch's notes, and a walk that yields nothing leaves the cursor where it was. |
| Streaming.Observed | src/syncbot/__init__.py:367-396 | What `main` does for the yielded notes. Each yielded note makes at least one call, and the last call is the save of the last yielded id. |
| Streaming.Step | src/syncbot/__init__.py:94-106 | One turn of the loop, or a signal. The trace only grows. The flag is cleared exactly by a signal. |
| Streaming.Run | src/syncbot/__init__.py:94 | The loop over a script of events. The trace only grows, and a stopped loop never runs again. |
| Streaming.StreamCursorIsLastYield | src/syncbot/__init__.py:98-101 | After a batch the generator's cursor is the last yielded id, or the old cursor when nothing was yielded. |
| Streaming.StreamCursorIsLastNote | src/syncbot/__init__.py:98-101 | After a non-empty batch the cursor is the id of the batch's last note, whether or not it was yielded. |
| Streaming.StreamYieldsKeep | src/syncbot/__init__.py:98-101 | A note is yielded exactly when its id differs from the note before it (or from the incoming cursor, for the first note). |
| Streaming.NoRepeatedNeighbours | src/syncbot/__init__.py:99 | No two consecutive yielded notes share an id, and the first one differs from the cursor. |
| Streaming.ReappearingNoteYieldedTwice | src/syncbot/__init__.py:99 | The check is against the last id only, so a batch a, b, a yields a twice. |
| Streaming.YieldedDelivered | src/syncbot/__init__.py:98-100 | Every yielded note is one of the fetched ones, with its answers. |
| Streaming.StepKeepsSync | src/syncbot/__init__.py:94-106 | One turn keeps the generator's cursor, `config.since_id` and the state file equal. |
| Streaming.RunKeepsSync | src/syncbot/__init__.py:364-396 | The whole run keeps the generator's cursor, `config.since_id` and the state file equal. |
| Streaming.TransportErrorKeepsCursor | src/syncbot/__init__.py:103-106 | A failed fetch changes nothing but the trace (a fetch and a 30-second pause). The next fetch uses the same `sinceId`. |
| Streaming.RunStopsOnlyOnSignal | src/syncbot/__init__.py:94 | The run ends stopped exactly when a signal arrived. |
| Streaming.NothingAfterSignal | src/syncbot/__init__.py:94 | Events after a signal have no effect. |
| Streaming.SavesAppend | src/syncbot/__init__.py:396 | The saves in two traces are those of each trace, concatenated. |
| Streaming.NoSaveWithoutSaveState | src/syncbot/__init__.py:396 | A trace without a save call saves nothing. |
| Streaming.NoteSavesNothing | src/syncbot/__init__.py:367-392 | Crossposting a note writes no state. |
| Streaming.TransfersSaveNothing | src/syncbot/__init__.py:204-232 | Transferring attachments writes no state. |
| Streaming.FileSavesNothing | src/syncbot/__init__.py:212-230 | Transferring one attachment writes no state. |
| Streaming.ObservedSavesEveryYield | src/syncbot/__init__.py:367-396 | Every yielded note's id is saved once, in order, eligible or not, and whether or not its crosspost failed. |
| Streaming.QuietStepSavesNothing | src/syncbot/__init__.py:103-106 | A signal or a failed fetch saves nothing. |
| Streaming.PollSavesYields | src/syncbot/__init__.py:94-102 | A successful poll saves exactly the ids of the notes it yields. |
| Streaming.StepSavedIsLastWrite | src/syncbot/__init__.py:395-396 | The saved id is always the last id written to the state file. |
| Streaming.IdsLast | src/syncbot/__init__.py:395-396 | There is one id per yielded note, and the last id is the last note's. |
| Streaming.StreamSnoc | src/syncbot/__init__.py:98-101 | One more note either is yielded and becomes the cursor, or changes nothing. |
| Streaming.ObservedSnoc | src/syncbot/__init__.py:367-396 | One more yielded note adds its crosspost and then its save. |
| Streaming.Daemon.constructor | src/syncbot/__init__.py:348-349 | The daemon starts running, with the loaded `since_id` as cursor, `config.since_id` and saved id, and an empty trace. |
| Streaming.Daemon.PollFeed | src/syncbot/__init__.py:94-106 | One loop turn, run in place, leaves exactly the state `Step` gives. |
| Streaming.Daemon.Observe | src/syncbot/__init__.py:367-396 | A yielded note is crossposted. Then the cursor, `config.since_id` and the saved id all become its id. |
| Streaming.Daemon.Loop | src/syncbot/__init__.py:364-396 | The loop run in place leaves exactly the state `Run` gives for the script. |
| Streaming.Daemon.Listen | src/syncbot/__init__.py:364-401 | `main`'s loop, then `stop_streaming` in `finally`: the final state is `Run`'s, with the flag cleared. |
| Settings.ReadEnvironment | src/syncbot/__init__.py:287-295 | The dictionary has exactly the five required fields and the two counts. A required field is null exactly when its variable is unset, and otherwise it holds the variable's text. The counts are the parsed values. |
| Settings.ConfigPath | src/syncbot/__init__.py:307 | The configuration file is `CONFIG_FILE` when that variable is set, and "config.json" otherwise. |
| Settings.Merged | src/syncbot/__init__.py:313-315 | The dictionary after the update loop. Its keys are those of both, and a value that is set is never replaced. |
| Settings.Filled | src/syncbot/__init__.py:306-315 | The dictionary once the configuration file has been consulted, if it was. It keeps every key, and every value that was set. |
| Settings.GatherConfig | src/syncbot/__init__.py:284-316 | The configuration file is opened exactly when a required field's variable is unset. Opening it raises exactly when it is unreadable. Otherwise the dictionary is `Filled`. |
| Settings.FillFromFile | src/syncbot/__init__.py:313-315 | The update loop leaves `Merged`: each file key fills a key that is missing or null. |
| Settings.MergedStep | src/syncbot/__init__.py:313-315 | One more file key fills its field exactly when the field is still unset. |
| Settings.MergedPrefersCurrent | src/syncbot/__init__.py:313-315 | A set value is kept. An unset one takes the file's value when the file has the key. The keys are those of both. |
| Settings.FileCountsIgnored | src/syncbot/__init__.py:293-315 | `fetch_limit` and `crosspost_delay` from the configuration file never take effect, because the environment's values are never unset. |
| Settings.EnvMissing | src/syncbot/__init__.py:306-307 | The configuration file is consulted exactly when some required field's environment variable is unset. |
| Settings.FilledFields | src/syncbot/__init__.py:306-315 | After the merge, each required field holds the environment's value, else the file's, else it is unset. The counts are the environment's. The keys are the environment's plus, when the file was read, the file's. |
| Settings.MissingFrom | src/syncbot/__init__.py:320-322 | The reported fields are exactly the required ones that are unset. |
| Settings.Missing | src/syncbot/__init__.py:320-323 | The missing fields are exactly the required fields that are unset. The list is empty exactly when no required field is unset. |
| Settings.MissingFromInOrder | src/syncbot/__init__.py:320-322 | Two unset fields are reported in the order of the list of required fields. |
| Settings.LoadConfig | src/syncbot/__init__.py:282-335 | The configuration file is opened only when an environment variable is unset, and the state file only after validation. An unreadable file that is opened raises. The missing fields are reported exactly when neither source sets them, in the order of `required_fields`. The environment wins over the file, and the counts come from it. `since_id` comes only from the state file. A loaded dictionary holds exactly the eight fields of `Config`. The result is rejected exactly when the configuration file, once read, holds a key `Config` does not know. |

## Left out

- HTTP plumbing is not modelled: headers, tokens, timeouts,
  `raise_for_status`, and the JSON decoding of responses. A call's outcome is
  an input `Result`.
- The download's generated filename is not modelled, so the clock, `hash`
  and `mimetypes` are left out.
- The upload's multipart form is reduced to the blob and the description.
- Sleeps are recorded as `Sleep` effects and never suspend anything.
- Signal-handler registration and asynchronous delivery are not modelled. A
  signal is an event between polls. That is where the flag is first looked
  at, because the loop over a fetched batch never reads it.
- The files written by `save_state` are recorded as `SaveState` effects.
  Its timestamp and a failing write are not modelled.
- The parsing of `FETCH_LIMIT` and `CROSSPOST_DELAY` with `int()`, and its
  `ValueError`, are not modelled. The model receives the parsed values.
- A configuration or state file whose JSON is not an object (so that
  `.items()` or `.get` raises) is not modelled.
- The model does not check the types of the values `Config` receives,
  because the dataclass does not check them either. `Settings.LoadConfig`
  returns the dictionary the record is built from.
- A feed response that is not a list, a note without an `id`, and a note
  with a null `id` are not modelled. A missing `id` raises a `KeyError` that
  the generator's `except RequestException` does not catch. A null `id` would
  leave the batch mode's newest id unset for the next note, clear the
  stream's cursor so the next note is always yielded, and save a null
  cursor. Every fetched note has a string id.
- `MastodonClient` holds no state beyond its base URL and headers. It is
  modelled only by `Ports.MastodonApiBase` and the payload functions.
- The console messages printed by `print` are not modelled.
- The continuous mode runs for as long as its script of events, instead of
  forever.
- Streaming.Daemon.Loop: the script stands in for the unbounded
  `while self._running` loop, which ends only on a signal.

Behaviour of the code worth knowing:

- The inter-post pause follows only a successful `create_status`. A failed
  post skips it.
- The continuous mode pauses 5 seconds after every successful poll, not only
  after an empty one.
- A note is skipped only when its id equals the last cursor, not when it is
  older than the cursor (`Streaming.ReappearingNoteYieldedTwice`).
- The cursor is saved after the note's crosspost, not before it.
- The batch mode returns the first fetched id. The continuous mode moves its
  cursor to the last yielded id. For one feed order, only one of the two can
  be the newest.
- `fetch_limit` and `crosspost_delay` in the configuration file never take
  effect.

=== FILE: attachments.dfy ===
/**
 * `process_misskey_files`: each attachment is downloaded from Misskey and
 * uploaded to Mastodon in turn; a failure on either leg drops that attachment
 * only. The network's answers are given per attachment as a `Transfer`.
 */
module Attachments {
  import opened Wrappers
  import opened Notes
  import opened Ports

  /** What the two legs of one attachment's transfer return. */
  datatype Transfer = Transfer(download: Result<Blob>, upload: Result<string>)

  /** Without a usable `url` the attachment fails before any request is sent. */
  predicate Transfers(file: Attachment, t: Transfer)
  {
    file.url.Present? && t.download.Ok? && t.upload.Ok?
  }

  /** The calls one attachment makes: download, then upload, then a one-second pause. */
  function FileEffects(instance: string, file: Attachment, t: Transfer): (r: seq<Effect>)
    ensures !file.url.Present? ==> r == []
    ensures file.url.Present? ==> |r| > 0 && r[0] == Download(AttachmentUrl(instance, file.url.value))
  {
    match file.url
    case Present(url) =>
      [Download(AttachmentUrl(instance, url))]
      + (match t.download
         case Err => []
         case Ok(blob) => [UploadMedia(blob, Get(file.comment))] + (if t.upload.Ok? then [Sleep(1)] else []))
    case _ => []
  }

  /** The media ids collected, attachment by attachment. */
  function UploadedIds(files: seq<Attachment>, ts: seq<Transfer>): (r: seq<string>)
    requires |ts| == |files|
    ensures |r| <= |files|
  {
    if files == [] then []
    else
      var n := |files| - 1;
      UploadedIds(files[..n], ts[..n]) + (if Transfers(files[n], ts[n]) then [ts[n].upload.value] else [])
  }

  /** The calls made for a list of attachments. */
  function TransferEffects(instance: string, files: seq<Attachment>, ts: seq<Transfer>): (r: seq<Effect>)
    requires |ts| == |files|
    ensures r == [] <==> forall i :: 0 <= i < |files| ==> !files[i].url.Present?
  {
    if files == [] then []
    else
      var n := |files| - 1;
      TransferEffects(instance, files[..n], ts[..n]) + FileEffects(instance, files[n], ts[n])
  }

  /** The `try` block of one attachment: download, upload, keep the id, pause; the `except` skips it. */
  method TransferFile(instance: string, file: Attachment, t: Transfer) returns (id: Option<string>, calls: seq<Effect>)
    ensures id.Some? <==> Transfers(file, t)
    ensures id.Some? ==> id.value == t.upload.value
    ensures calls == FileEffects(instance, file, t)
  {
    id, calls := None, [];
    if file.url.Present? {
      calls := [Download(AttachmentUrl(instance, file.url.value))];
      if t.download.Ok? {
        calls := calls + [UploadMedia(t.download.value, Get(file.comment))];
        if t.upload.Ok? {
          id := Some(t.upload.value);
          calls := calls + [Sleep(1)];
        }
      }
    }
  }

  /** `process_misskey_files`. */
  method ProcessFiles(instance: string, files: seq<Attachment>, transfers: seq<Transfer>)
    returns (mediaIds: seq<string>, effects: seq<Effect>)
    requires |transfers| == |files|
    ensures mediaIds == UploadedIds(files, transfers)
    ensures effects == TransferEffects(instance, files, transfers)
  {
    mediaIds, effects := [], [];
    for i := 0 to |files|
      invariant mediaIds == UploadedIds(files[..i], transfers[..i])
      invariant effects == TransferEffects(instance, files[..i], transfers[..i])
    {
      assert files[..i + 1][..i] == files[..i] && transfers[..i + 1][..i] == transfers[..i];
      var id, calls := TransferFile(instance, files[i], transfers[i]);
      if id.Some? {
        mediaIds := mediaIds + [id.value];
      }
      effects := effects + calls;
    }
    assert files[..|files|] == files && transfers[..|transfers|] == transfers;
  }

  /** The positions of the attachments that went through, in increasing order. */
  function SucceededAt(files: seq<Attachment>, ts: seq<Transfer>): seq<nat>
    requires |ts| == |files|
  {
    if files == [] then []
    else
      var n := |files| - 1;
      SucceededAt(files[..n], ts[..n]) + (if Transfers(files[n], ts[n]) then [n] else [])
  }

  /** The positions are in range and strictly increasing; there are as many as ids. */
  lemma {:induction false} SucceededAtOrdered(files: seq<Attachment>, ts: seq<Transfer>)
    requires |ts| == |files|
    ensures var at := SucceededAt(files, ts);
      && |UploadedIds(files, ts)| == |at| <= |files|
      && (forall k :: 0 <= k < |at| ==> at[k] < |files|)
      && (forall k, l :: 0 <= k < l < |at| ==> at[k] < at[l])
  {
    if files != [] {
      var n := |files| - 1;
      SucceededAtOrdered(files[..n], ts[..n]);
    }
  }

  /** An attachment's position is listed exactly when its download and upload both succeeded. */
  lemma {:induction false} SucceededAtExactly(files: seq<Attachment>, ts: seq<Transfer>, i: nat)
    requires |ts| == |files| && i < |files|
    ensures Transfers(files[i], ts[i]) <==> i in SucceededAt(files, ts)
  {
    var n := |files| - 1;
    SucceededAtOrdered(files[..n], ts[..n]);
    if i < n {
      SucceededAtExactly(files[..n], ts[..n], i);
    }
  }

  /** The k-th collected id is the upload id of the k-th attachment that went through. */
  lemma {:induction false} UploadedIdsAt(files: seq<Attachment>, ts: seq<Transfer>, k: nat)
    requires |ts| == |files|
    requires k < |SucceededAt(files, ts)|
    ensures SucceededAt(files, ts)[k] < |files| && Transfers(files[SucceededAt(files, ts)[k]], ts[SucceededAt(files, ts)[k]])
    ensures k < |UploadedIds(files, ts)| && UploadedIds(files, ts)[k] == ts[SucceededAt(files, ts)[k]].upload.value
  {
    SucceededAtOrdered(files, ts);
    var n := |files| - 1;
    SucceededAtOrdered(files[..n], ts[..n]);
    if k < |SucceededAt(files[..n], ts[..n])| {
      UploadedIdsAt(files[..n], ts[..n], k);
    }
  }

  /** A failing attachment changes nothing for the ones after it: the collection is per attachment. */
  lemma {:induction false} UploadedIdsAppend(f1: seq<Attachment>, t1: seq<Transfer>, f2: seq<Attachment>, t2: seq<Transfer>)
    requires |t1| == |f1| && |t2| == |f2|
    ensures UploadedIds(f1 + f2, t1 + t2) == UploadedIds(f1, t1) + UploadedIds(f2, t2)
  {
    if f2 != [] {
      var n := |f2| - 1;
      assert (f1 + f2)[..|f1| + n] == f1 + f2[..n];
      assert (t1 + t2)[..|t1| + n] == t1 + t2[..n];
      UploadedIdsAppend(f1, t1, f2[..n], t2[..n]);
    } else {
      assert f1 + f2 == f1 && t1 + t2 == t1;
    }
  }

  /** The URLs downloaded, in order, taken from an effect trace. */
  function Downloads(effects: seq<Effect>): seq<string>
  {
    if effects == [] then []
    else
      var n := |effects| - 1;
      Downloads(effects[..n]) + (if effects[n].Download? then [effects[n].url] else [])
  }

  lemma {:induction false} DownloadsAppend(e1: seq<Effect>, e2: seq<Effect>)
    ensures Downloads(e1 + e2) == Downloads(e1) + Downloads(e2)
  {
    if e2 != [] {
      var n := |e2| - 1;
      assert (e1 + e2)[..|e1| + n] == e1 + e2[..n];
      DownloadsAppend(e1, e2[..n]);
    } else {
      assert e1 + e2 == e1;
    }
  }

  /** The URLs of the attachments that have one, rewritten against the instance. */
  function AttachmentUrls(instance: string, files: seq<Attachment>): seq<string>
  {
    if files == [] then []
    else
      var n := |files| - 1;
      AttachmentUrls(instance, files[..n])
      + (if files[n].url.Present? then [AttachmentUrl(instance, files[n].url.value)] else [])
  }

  /**
   * Every attachment with a URL is downloaded, in order, whatever the
   * earlier attachments' downloads and uploads returned.
   */
  lemma {:induction false} EveryAttachmentAttempted(instance: string, files: seq<Attachment>, ts: seq<Transfer>)
    requires |ts| == |files|
    ensures Downloads(TransferEffects(instance, files, ts)) == AttachmentUrls(instance, files)
  {
    if files != [] {
      var n := |files| - 1;
      EveryAttachmentAttempted(instance, files[..n], ts[..n]);
      DownloadsAppend(TransferEffects(instance, files[..n], ts[..n]), FileEffects(instance, files[n], ts[n]));
      FileDownloads(instance, files[n], ts[n]);
    }
  }

  /** One attachment is downloaded once, from its normalised URL, when it has a URL. */
  lemma FileDownloads(instance: string, file: Attachment, t: Transfer)
    ensures Downloads(FileEffects(instance, file, t))
      == if file.url.Present? then [AttachmentUrl(instance, file.url.value)] else []
  {
    var fe := FileEffects(instance, file, t);
    if file.url.Present? {
      var u := AttachmentUrl(instance, file.url.value);
      DownloadsAppend([Download(u)], fe[1..]);
      assert fe == [Download(u)] + fe[1..];
      assert Downloads([Download(u)]) == [u] by {
        assert [Download(u)][..0] == [];
      }
      if t.download.Ok? {
        assert Downloads(fe[1..]) == [] by {
          var rest := fe[1..];
          if t.upload.Ok? {
            assert rest[..1][..0] == [] && rest[..|rest| - 1] == rest[..1];
          } else {
            assert rest[..0] == [];
          }
        }
      } else {
        assert fe[1..] == [];
      }
    }
  }

  /** Three attachments, the second one failing to download: the first and third ids come back, in order. */
  lemma SecondDownloadFails(files: seq<Attachment>, ts: seq<Transfer>)
    requires |files| == 3 && |ts| == 3 && forall i :: 0 <= i < 3 ==> files[i].url.Present?
    requires ts[0].download.Ok? && ts[0].upload.Ok? && ts[1].download.Err?
    requires ts[2].download.Ok? && ts[2].upload.Ok?
    ensures UploadedIds(files, ts) == [ts[0].upload.value, ts[2].upload.value]
  {
    assert UploadedIds(files[..1], ts[..1]) == [ts[0].upload.value];
    assert files[..2][..1] == files[..1] && ts[..2][..1] == ts[..1];
    assert UploadedIds(files[..2], ts[..2]) == [ts[0].upload.value];
  }
}

=== FILE: crosspost.dfy ===
/**
 * Crossposting one note (the body shared by `crosspost` and `main`) and the
 * one-shot batch run `crosspost`. What Mastodon answers for each note is given
 * as a `Delivery`; a fetched note travels with its delivery as an `Arrival`.
 */
module Crossposting {
  import opened Wrappers
  import opened Notes
  import opened Ports
  import opened Attachments

  /** The fields of the configuration that the core reads. */
  datatype Config = Config(
    misskeyInstance: string,
    userId: string,
    fetchLimit: int,
    sinceId: Option<string>,
    crosspostDelay: int)

  /** The Misskey instance as the client keeps it. */
  function Instance(config: Config): string
  {
    RStrip(config.misskeyInstance, '/')
  }

  /** Mastodon's answers for one note: per attachment, then for `create_status`. */
  datatype Delivery = Delivery(transfers: seq<Transfer>, status: Result<string>)

  datatype Arrival = Arrival(note: Note, delivery: Delivery)

  /** The attachments that are transferred: `note["files"]` when present and non-empty. */
  function Files(note: Note): (r: seq<Attachment>)
    ensures r != [] ==> note.files.Present? && r == note.files.value
    ensures note.files.Present? ==> r == note.files.value
  {
    if note.files.Present? then note.files.value else []
  }

  /** Every attachment has its answers. */
  predicate WellFormed(a: Arrival)
  {
    |a.delivery.transfers| == |Files(a.note)|
  }

  predicate Delivered(batch: seq<Arrival>)
  {
    forall i :: 0 <= i < |batch| ==> WellFormed(batch[i])
  }

  /** The `create_status` call for a note: text defaults to "" for a missing key, `cw` goes as it is. */
  function StatusFor(note: Note, mediaIds: seq<string>): (r: StatusRequest)
    ensures r.text.None? <==> note.text.Null?
    ensures note.text.Absent? ==> r.text == Some("")
    ensures note.text.Present? ==> r.text == Some(note.text.value)
    ensures r.mediaIds == mediaIds
    ensures r.visibility == NoteVisibility(note)
    ensures r.visibility in {"public", "private", "direct", "unlisted"}
    ensures r.spoiler.Some? <==> note.cw.Present?
    ensures r.spoiler.Some? ==> r.spoiler.value == note.cw.value
  {
    StatusRequest(GetOr(note.text, ""), mediaIds, NoteVisibility(note), Get(note.cw))
  }

  /** The calls made for one note: nothing if it is not eligible, otherwise transfers, status, pause. */
  function NoteEffects(instance: string, delay: int, a: Arrival): (r: seq<Effect>)
    requires WellFormed(a)
    ensures r == [] <==> !ShouldCrosspost(a.note)
  {
    if !ShouldCrosspost(a.note) then []
    else
      var files := Files(a.note);
      TransferEffects(instance, files, a.delivery.transfers)
      + [CreateStatus(StatusFor(a.note, UploadedIds(files, a.delivery.transfers)))]
      + (if a.delivery.status.Ok? then [Sleep(delay)] else [])
  }

  /** One note of the loop in `crosspost` or in `main`; a failing `create_status` is caught here. */
  method HandleNote(instance: string, delay: int, a: Arrival) returns (effects: seq<Effect>)
    requires WellFormed(a)
    ensures effects == NoteEffects(instance, delay, a)
  {
    effects := [];
    if ShouldCrosspost(a.note) {
      var mediaIds := [];
      if a.note.files.Present? && a.note.files.value != [] {
        mediaIds, effects := ProcessFiles(instance, a.note.files.value, a.delivery.transfers);
      }
      effects := effects + [CreateStatus(StatusFor(a.note, mediaIds))];
      if a.delivery.status.Ok? {
        effects := effects + [Sleep(delay)];
      }
    }
  }

  /** The calls made for a list of notes, note after note. */
  function BatchEffects(instance: string, delay: int, batch: seq<Arrival>): (r: seq<Effect>)
    requires Delivered(batch)
    ensures r == [] <==> forall i :: 0 <= i < |batch| ==> !ShouldCrosspost(batch[i].note)
  {
    if batch == [] then []
    else
      var n := |batch| - 1;
      BatchEffects(instance, delay, batch[..n]) + NoteEffects(instance, delay, batch[n])
  }

  /** One more note of a batch adds its own calls after the others'. */
  lemma BatchEffectsSnoc(instance: string, delay: int, batch: seq<Arrival>, i: nat)
    requires Delivered(batch) && i < |batch|
    ensures Delivered(batch[..i]) && Delivered(batch[..i + 1])
    ensures BatchEffects(instance, delay, batch[..i + 1])
      == BatchEffects(instance, delay, batch[..i]) + NoteEffects(instance, delay, batch[i])
  {
    assert batch[..i + 1][..i] == batch[..i];
  }

  /**
   * `crosspost`: one fetch, then every fetched note in order. A failing fetch
   * leaves the function as an exception; otherwise the result is the id of the
   * FIRST fetched note (None for an empty list), whatever happened to the notes.
   */
  method Crosspost(config: Config, fetched: Result<seq<Arrival>>)
    returns (newest: Result<Option<string>>, effects: seq<Effect>)
    requires fetched.Ok? ==> Delivered(fetched.value)
    ensures newest.Ok? <==> fetched.Ok?
    ensures fetched.Ok? ==> newest.value == (if fetched.value == [] then None else Some(fetched.value[0].note.id))
    ensures effects == [FetchNotes(config.userId, config.fetchLimit, SinceIdParam(config.sinceId))]
      + (if fetched.Ok? then BatchEffects(Instance(config), config.crosspostDelay, fetched.value) else [])
  {
    var client := new MisskeyClient(config.misskeyInstance);
    var fetch := [FetchNotes(config.userId, config.fetchLimit, SinceIdParam(config.sinceId))];
    effects := fetch;
    if fetched.Err? {
      return Err, effects;
    }
    var notes := fetched.value;
    var newestId: Option<string> := None;
    for i := 0 to |notes|
      invariant newestId == if i == 0 then None else Some(notes[0].note.id)
      invariant effects == fetch + BatchEffects(client.instance, config.crosspostDelay, notes[..i])
    {
      BatchEffectsSnoc(client.instance, config.crosspostDelay, notes, i);
      var a := notes[i];
      if newestId.None? {
        newestId := Some(a.note.id);
      }
      var calls := HandleNote(client.instance, config.crosspostDelay, a);
      Regroup(fetch, BatchEffects(client.instance, config.crosspostDelay, notes[..i]), calls);
      effects := effects + calls;
    }
    assert notes[..|notes|] == notes;
    newest := Ok(newestId);
  }

  /** The `create_status` requests of an effect trace, in order. */
  function StatusRequests(effects: seq<Effect>): seq<StatusRequest>
  {
    if effects == [] then []
    else
      var n := |effects| - 1;
      StatusRequests(effects[..n]) + (if effects[n].CreateStatus? then [effects[n].request] else [])
  }

  lemma {:induction false} StatusRequestsAppend(e1: seq<Effect>, e2: seq<Effect>)
    ensures StatusRequests(e1 + e2) == StatusRequests(e1) + StatusRequests(e2)
  {
    if e2 != [] {
      var n := |e2| - 1;
      assert (e1 + e2)[..|e1| + n] == e1 + e2[..n];
      StatusRequestsAppend(e1, e2[..n]);
    } else {
      assert e1 + e2 == e1;
    }
  }

  /** Attachment transfers never create a status. */
  lemma {:induction false} TransfersCreateNoStatus(instance: string, files: seq<Attachment>, ts: seq<Transfer>)
    requires |ts| == |files|
    ensures StatusRequests(TransferEffects(instance, files, ts)) == []
  {
    if files != [] {
      var n := |files| - 1;
      var fe := FileEffects(instance, files[n], ts[n]);
      TransfersCreateNoStatus(instance, files[..n], ts[..n]);
      StatusRequestsAppend(TransferEffects(instance, files[..n], ts[..n]), fe);
      FileCreatesNoStatus(instance, files[n], ts[n]);
    }
  }

  /** One attachment's transfer never creates a status. */
  lemma FileCreatesNoStatus(instance: string, file: Attachment, t: Transfer)
    ensures StatusRequests(FileEffects(instance, file, t)) == []
  {
    var fe := FileEffects(instance, file, t);
    assert forall k :: 0 <= k < |fe| ==> !fe[k].CreateStatus?;
    NoStatusWithoutCreate(fe);
  }

  lemma {:induction false} NoStatusWithoutCreate(effects: seq<Effect>)
    requires forall k :: 0 <= k < |effects| ==> !effects[k].CreateStatus?
    ensures StatusRequests(effects) == []
  {
    if effects != [] {
      NoStatusWithoutCreate(effects[..|effects| - 1]);
    }
  }

  /**
   * One `create_status` per eligible note, none for the others: its media ids
   * are those of the attachments that went through.
   */
  lemma NoteStatusRequests(instance: string, delay: int, a: Arrival)
    requires WellFormed(a)
    ensures StatusRequests(NoteEffects(instance, delay, a))
      == if ShouldCrosspost(a.note) then [StatusFor(a.note, UploadedIds(Files(a.note), a.delivery.transfers))] else []
  {
    if ShouldCrosspost(a.note) {
      var files := Files(a.note);
      var te := TransferEffects(instance, files, a.delivery.transfers);
      var st := [CreateStatus(StatusFor(a.note, UploadedIds(files, a.delivery.transfers)))];
      var pause: seq<Effect> := if a.delivery.status.Ok? then [Sleep(delay)] else [];
      TransfersCreateNoStatus(instance, files, a.delivery.transfers);
      StatusRequestsAppend(te, st);
      StatusRequestsAppend(te + st, pause);
      NoStatusWithoutCreate(pause);
      assert StatusRequests(st) == [st[0].request] by {
        assert st[..0] == [];
      }
    }
  }

  /** The status requests a batch should produce: one per eligible note, in the batch's order. */
  function EligibleStatuses(batch: seq<Arrival>): seq<StatusRequest>
    requires Delivered(batch)
  {
    if batch == [] then []
    else
      var n := |batch| - 1;
      var a := batch[n];
      EligibleStatuses(batch[..n])
      + (if ShouldCrosspost(a.note) then [StatusFor(a.note, UploadedIds(Files(a.note), a.delivery.transfers))] else [])
  }

  /**
   * A batch creates exactly the statuses of its eligible notes, in order; whether
   * earlier `create_status` calls failed plays no part.
   */
  lemma {:induction false} BatchStatusRequests(instance: string, delay: int, batch: seq<Arrival>)
    requires Delivered(batch)
    ensures StatusRequests(BatchEffects(instance, delay, batch)) == EligibleStatuses(batch)
  {
    if batch != [] {
      var n := |batch| - 1;
      BatchStatusRequests(instance, delay, batch[..n]);
      StatusRequestsAppend(BatchEffects(instance, delay, batch[..n]), NoteEffects(instance, delay, batch[n]));
      NoteStatusRequests(instance, delay, batch[n]);
    }
  }

  /** Notes are handled independently: the calls for a batch are those of its parts, one after the other. */
  lemma {:induction false} BatchEffectsAppend(instance: string, delay: int, b1: seq<Arrival>, b2: seq<Arrival>)
    requires Delivered(b1) && Delivered(b2)
    ensures Delivered(b1 + b2)
    ensures BatchEffects(instance, delay, b1 + b2) == BatchEffects(instance, delay, b1) + BatchEffects(instance, delay, b2)
  {
    DeliveredAppend(b1, b2);
    if b2 == [] {
      assert b1 + b2 == b1;
    } else {
      var n := |b2| - 1;
      var b := b1 + b2;
      assert b[..|b| - 1] == b1 + b2[..n] && b[|b| - 1] == b2[n];
      BatchEffectsAppend(instance, delay, b1, b2[..n]);
      var e1, e2, last := BatchEffects(instance, delay, b1), BatchEffects(instance, delay, b2[..n]), NoteEffects(instance, delay, b2[n]);
      assert BatchEffects(instance, delay, b) == e1 + e2 + last;
      assert BatchEffects(instance, delay, b2) == e2 + last;
      Regroup(e1, e2, last);
    }
  }

  lemma DeliveredAppend(b1: seq<Arrival>, b2: seq<Arrival>)
    requires Delivered(b1) && Delivered(b2)
    ensures Delivered(b1 + b2)
  {
    forall i | 0 <= i < |b1 + b2| ensures WellFormed((b1 + b2)[i]) {
      if i >= |b1| { assert (b1 + b2)[i] == b2[i - |b1|]; }
    }
  }

  /** The pause after a note follows a successful `create_status` only; a failed one moves straight on. */
  lemma PauseOnlyAfterSuccess(instance: string, delay: int, a: Arrival)
    requires WellFormed(a) && ShouldCrosspost(a.note)
    ensures var e := NoteEffects(instance, delay, a);
      && e != []
      && (a.delivery.status.Ok? ==> e[|e| - 1] == Sleep(delay) && e[|e| - 2].CreateStatus?)
      && (a.delivery.status.Err? ==> e[|e| - 1].CreateStatus?)
  {
  }

  /** A plain note: eligible, "home" becomes "unlisted", no media ids and no spoiler text in the request. */
  lemma PlainNoteCrossposted(instance: string, delay: int, a: Arrival)
    requires a.note.replyId == Null && a.note.renoteId == Null && a.note.mentions == Present([])
    requires a.note.text == Present("hello world") && a.note.visibility == Present("home")
    requires a.note.cw == Null && a.note.files.Absent? && a.delivery.transfers == []
    ensures WellFormed(a)
    ensures NoteEffects(instance, delay, a)[0] == CreateStatus(StatusRequest(Some("hello world"), [], "unlisted", None))
    ensures var body := StatusBody(NoteEffects(instance, delay, a)[0].request);
      "media_ids" !in body && "spoiler_text" !in body && body["visibility"] == Str("unlisted")
  {
    assert ShouldCrosspost(a.note) by {
      assert forall i :: 0 <= i < |a.note.text.value| ==> a.note.text.value[i] != '@';
    }
  }
}

=== FILE: notes.dfy ===
/**
 * Misskey notes as the crossposter reads them (decoded JSON objects), the
 * eligibility filter `should_crosspost` and the visibility table
 * `misskey_to_mastodon_visibility`.
 */
module Notes {
  import opened Wrappers

  /** One key of a decoded JSON object: missing, present with `null`, or present with a value. */
  datatype Field<+T> = Absent | Null | Present(value: T)

  /** `obj.get(key)`: a missing key and a `null` both read as None. */
  function Get<T>(f: Field<T>): Option<T>
  {
    if f.Present? then Some(f.value) else None
  }

  /** `obj.get(key, default)`: the default replaces a missing key only; a `null` stays None. */
  function GetOr<T>(f: Field<T>, default: T): Option<T>
  {
    match f
    case Absent => Some(default)
    case Null => None
    case Present(v) => Some(v)
  }

  /** Python truthiness of an optional list or string: present and non-empty. */
  predicate Truthy<T>(o: Option<seq<T>>)
  {
    o.Some? && |o.value| > 0
  }

  /** An entry of a note's `files` list; only `url` and `comment` are read. */
  datatype Attachment = Attachment(url: Field<string>, comment: Field<string>)

  /** A note of the `users/notes` endpoint; `id` is read with `note["id"]`, so it is always there. */
  datatype Note = Note(
    id: string,
    text: Field<string>,
    replyId: Field<string>,
    renoteId: Field<string>,
    mentions: Field<seq<string>>,
    visibility: Field<string>,
    cw: Field<string>,
    files: Field<seq<Attachment>>)

  /**
   * The eligibility filter: replies, renotes and quotes, notes with structured
   * mentions and notes whose text holds an '@' are not crossposted. A missing
   * key and a `null` are treated alike; an empty text passes.
   */
  function ShouldCrosspost(note: Note): (r: bool)
    ensures r <==>
      && (note.replyId.Absent? || note.replyId.Null?)
      && (note.renoteId.Absent? || note.renoteId.Null?)
      && (note.mentions.Present? ==> note.mentions.value == [])
      && (note.text.Present? ==> forall i :: 0 <= i < |note.text.value| ==> note.text.value[i] != '@')
  {
    if Get(note.replyId).Some? then false
    else if Get(note.renoteId).Some? then false
    else if Truthy(Get(note.mentions)) then false
    else if Truthy(Get(note.text)) && '@' in Get(note.text).value then false
    else true
  }

  /** The Misskey-to-Mastodon visibility table. */
  const VisibilityTable: map<string, string> :=
    map["public" := "public", "followers" := "private", "specified" := "direct", "home" := "unlisted"]

  /** Total: every string not in the table becomes "public". */
  function MastodonVisibility(visibility: string): (r: string)
    ensures visibility == "public" ==> r == "public"
    ensures visibility == "followers" ==> r == "private"
    ensures visibility == "specified" ==> r == "direct"
    ensures visibility == "home" ==> r == "unlisted"
    ensures visibility !in {"public", "followers", "specified", "home"} ==> r == "public"
    ensures r in {"public", "private", "direct", "unlisted"}
  {
    if visibility in VisibilityTable then VisibilityTable[visibility] else "public"
  }

  /**
   * The visibility a note is crossposted with: `note.get("visibility", "public")`
   * looked up in the table; a `null` is no key of the table and falls back to "public".
   */
  function NoteVisibility(note: Note): (r: string)
    ensures note.visibility.Present? ==> r == MastodonVisibility(note.visibility.value)
    ensures !note.visibility.Present? ==> r == "public"
  {
    match GetOr(note.visibility, "public")
    case Some(v) => MastodonVisibility(v)
    case None => "public"
  }

  /** Only the four Misskey values reach a visibility other than "public", each a different one. */
  lemma VisibilityInjectiveOffPublic(a: string, b: string)
    requires MastodonVisibility(a) == MastodonVisibility(b) != "public"
    ensures a == b
  {
  }

  /** A plain-text handle excludes a note that has no structured mention. */
  lemma PlainHandleExcluded(note: Note)
    requires note.replyId == Null && note.renoteId == Null && note.mentions == Present([])
    requires note.text == Present("hi @bob")
    ensures !ShouldCrosspost(note)
  {
    assert note.text.value[3] == '@';
  }

  /** A note without text and without markers is eligible, whether its keys are missing or null. */
  lemma EmptyNoteEligible(note: Note)
    requires !note.replyId.Present? && !note.renoteId.Present? && !note.mentions.Present?
    requires note.text.Absent? || note.text.Null? || note.text == Present("")
    ensures ShouldCrosspost(note)
  {
  }
}

=== FILE: ports.dfy ===
/**
 * What the crossposter asks of the two networks. The HTTP plumbing is not
 * modelled; what remains is the URL and cursor handling of the Misskey client,
 * the request bodies of the Mastodon client, and the record of every call
 * the core makes (`Effect`).
 */
module Ports {
  import opened Wrappers

  predicate StartsWith(s: string, prefix: string)
  {
    |prefix| <= |s| && s[..|prefix|] == prefix
  }

  /** `s.rstrip(c)`: drop every trailing `c`. */
  function RStrip(s: string, c: char): (r: string)
    ensures r <= s
    ensures r == [] || r[|r| - 1] != c
    ensures forall i :: |r| <= i < |s| ==> s[i] == c
  {
    if s != [] && s[|s| - 1] == c then RStrip(s[..|s| - 1], c) else s
  }

  /** `s.lstrip(c)`: drop every leading `c`. */
  function LStrip(s: string, c: char): (r: string)
    ensures |r| <= |s| && r == s[|s| - |r|..]
    ensures r == [] || r[0] != c
    ensures forall i :: 0 <= i < |s| - |r| ==> s[i] == c
  {
    if s != [] && s[0] == c then LStrip(s[1..], c) else s
  }

  /** Stripping twice strips nothing more. */
  lemma RStripIdempotent(s: string, c: char)
    ensures RStrip(RStrip(s, c), c) == RStrip(s, c)
  {
  }

  /**
   * The URL `download_attachment` fetches: one starting with "http" is taken
   * as it is; any other is a path on the instance, joined with exactly one '/'.
   */
  function AttachmentUrl(instance: string, url: string): (r: string)
    ensures StartsWith(url, "http") ==> r == url
    ensures !StartsWith(url, "http") ==>
      && StartsWith(r, instance + "/")
      && var path := r[|instance| + 1..];
      && |path| <= |url| && path == url[|url| - |path|..]
      && (path == [] || path[0] != '/')
      && forall i :: 0 <= i < |url| - |path| ==> url[i] == '/'
  {
    if StartsWith(url, "http") then url else instance + "/" + LStrip(url, '/')
  }

  /** With an absolute instance URL, the rewrite is idempotent: a rewritten URL is left alone. */
  lemma AttachmentUrlIdempotent(instance: string, url: string)
    requires StartsWith(instance, "http")
    ensures AttachmentUrl(instance, AttachmentUrl(instance, url)) == AttachmentUrl(instance, url)
  {
    var r := AttachmentUrl(instance, url);
    if !StartsWith(url, "http") {
      assert r[..|instance| + 1] == instance + "/";
      assert r[..4] == (instance + "/")[..4] == instance[..4];
    }
  }

  /** `get_user_notes` sends `sinceId` only for a truthy cursor: an empty id is dropped like a missing one. */
  function SinceIdParam(cursor: Option<string>): (r: Option<string>)
    ensures r.Some? <==> cursor.Some? && cursor.value != ""
    ensures r.Some? ==> r == cursor
  {
    if cursor.Some? && cursor.value != "" then cursor else None
  }

  /** A downloaded attachment: its bytes and the Content-Type it was served with. */
  datatype Blob = Blob(content: seq<bv8>, mimeType: string)

  /** The arguments of one `create_status` call. A note whose text is `null` sends a `null` status. */
  datatype StatusRequest = StatusRequest(
    text: Option<string>,
    mediaIds: seq<string>,
    visibility: string,
    spoiler: Option<string>)

  /** One call of the core into the outside world, in the order the calls are made. */
  datatype Effect =
    | FetchNotes(userId: string, limit: int, sinceId: Option<string>)
    | Download(url: string)
    | UploadMedia(file: Blob, description: Option<string>)
    | CreateStatus(request: StatusRequest)
    | Sleep(seconds: int)
    | SaveState(savedId: string)

  /** A JSON value of a Mastodon request body. */
  datatype Value = Nil | Str(s: string) | Strs(items: seq<string>)

  /** The JSON body of `create_status`: `media_ids` only when there are some, `spoiler_text` only when truthy. */
  function StatusBody(request: StatusRequest): (body: map<string, Value>)
    ensures body.Keys <= {"status", "visibility", "content_type", "media_ids", "spoiler_text"}
    ensures "status" in body && "visibility" in body && "content_type" in body
    ensures body["status"] == (if request.text.Some? then Str(request.text.value) else Nil)
    ensures body["visibility"] == Str(request.visibility)
    ensures body["content_type"] == Str("text/markdown")
    ensures "media_ids" in body <==> request.mediaIds != []
    ensures "media_ids" in body ==> body["media_ids"] == Strs(request.mediaIds)
    ensures "spoiler_text" in body <==> request.spoiler.Some? && request.spoiler.value != ""
    ensures "spoiler_text" in body ==> body["spoiler_text"] == Str(request.spoiler.value)
  {
    var status := match request.text case Some(t) => Str(t) case None => Nil;
    var body := map["status" := status, "visibility" := Str(request.visibility), "content_type" := Str("text/markdown")];
    var body := if request.mediaIds != [] then body["media_ids" := Strs(request.mediaIds)] else body;
    if request.spoiler.Some? && request.spoiler.value != "" then body["spoiler_text" := Str(request.spoiler.value)] else body
  }

  /** The form fields of `upload_media`: the description only when it is truthy. */
  function UploadFields(description: Option<string>): (fields: map<string, string>)
    ensures fields.Keys <= {"description"}
    ensures "description" in fields <==> description.Some? && description.value != ""
    ensures "description" in fields ==> fields["description"] == description.value
  {
    if description.Some? && description.value != "" then map["description" := description.value] else map[]
  }

  /** The API root of a Mastodon instance, whatever trailing slashes the configured URL has. */
  function MastodonApiBase(instance: string): (base: string)
    ensures |base| >= 7 && base[|base| - 7..] == "/api/v1"
    ensures base[..|base| - 7] <= instance && (|base| == 7 || base[|base| - 8] != '/')
    ensures forall i :: |base| - 7 <= i < |instance| ==> instance[i] == '/'
  {
    RStrip(instance, '/') + "/api/v1"
  }

  /** Concatenation regrouped, for traces built one part at a time. */
  lemma Regroup<T>(a: seq<T>, b: seq<T>, c: seq<T>)
    ensures a + b + c == a + (b + c)
  {
  }

  /** The Misskey client; its `_running` flag is what stops the stream. */
  class MisskeyClient {
    const instance: string
    const baseUrl: string
    var running: bool

    constructor (instance: string)
      ensures this.instance == RStrip(instance, '/') && baseUrl == this.instance + "/api"
      ensures running
    {
      this.instance := RStrip(instance, '/');
      this.baseUrl := RStrip(instance, '/') + "/api";
      running := true;
    }

    /** `stop_streaming`: the only way the flag becomes false. */
    method StopStreaming()
      modifies this
      ensures !running
    {
      running := false;
    }
  }
}

=== FILE: settings.dfy ===
/**
 * `load_config`: the configuration dictionary is built from the environment,
 * completed from a JSON configuration file when a required field is unset,
 * validated, given the `since_id` kept in the state file, and handed to the
 * `Config` record. The environment is a map of the variables that are set.
 * The file system is two inputs: a map from path to the JSON object that a
 * readable, well-formed file at that path holds, and the set of paths whose
 * file exists but cannot be opened or decoded as UTF-8 text. A path in
 * neither is a file that is missing or does not parse as JSON, which the
 * source treats alike; a path in the set raises, whatever the map holds.
 */
module Settings {

  /** A JSON value as far as the configuration cares about it. */
  datatype Json = JNull | JString(s: string) | JInt(n: int) | JOther

  /** A JSON object, or the configuration dictionary. */
  type Dict = map<string, Json>

  /** The outcome of `load_config`: the dictionary `Config` is built from, or the exception it raises. */
  datatype Loaded =
    | Loaded(config: Dict)
    | MissingConfig(fields: seq<string>)   // ValueError naming the missing fields
    | Rejected                             // TypeError from `Config(**config_dict)`
    | Unreadable(path: string)             // OSError or UnicodeDecodeError, which no `except` catches

  const RequiredFields: seq<string> :=
    ["misskey_instance", "misskey_token", "misskey_user_id", "mastodon_instance", "mastodon_token"]

  /** The environment variable that supplies a required field. */
  function EnvName(field: string): string
  {
    if field == "misskey_instance" then "MISSKEY_INSTANCE"
    else if field == "misskey_token" then "MISSKEY_TOKEN"
    else if field == "misskey_user_id" then "MISSKEY_USER_ID"
    else if field == "mastodon_instance" then "MASTODON_INSTANCE"
    else "MASTODON_TOKEN"
  }

  /** The fields of the `Config` record; any other key makes its constructor raise. */
  const ConfigFields: set<string> := {
    "misskey_instance", "misskey_token", "misskey_user_id", "mastodon_instance",
    "mastodon_token", "fetch_limit", "since_id", "crosspost_delay"}

  const StateFile := "crosspost_state.json"

  /** `d.get(k) is None`: the key is absent or holds JSON null. */
  predicate IsNone(d: Dict, k: string)
  {
    k !in d || d[k].JNull?
  }

  /** `d.get(k)`. */
  function Lookup(d: Dict, k: string): Json
  {
    if k in d then d[k] else JNull
  }

  /** `os.environ.get(name)`. */
  function EnvValue(env: map<string, string>, name: string): Json
  {
    if name in env then JString(env[name]) else JNull
  }

  /** What the dictionary read from the environment holds; the two counts come already parsed. */
  predicate FromEnv(d: Dict, env: map<string, string>, fetchLimit: int, delay: int)
  {
    && d.Keys == (set f | f in RequiredFields) + {"fetch_limit", "crosspost_delay"}
    && (forall f :: f in RequiredFields ==> d[f] == EnvValue(env, EnvName(f)))
    && d["fetch_limit"] == JInt(fetchLimit) && d["crosspost_delay"] == JInt(delay)
  }

  /** The dictionary literal at the head of `load_config`. */
  method ReadEnvironment(env: map<string, string>, fetchLimit: int, delay: int) returns (d: Dict)
    ensures FromEnv(d, env, fetchLimit, delay)
    ensures forall f :: f in RequiredFields ==> (IsNone(d, f) <==> EnvName(f) !in env)
  {
    d := map[
      "misskey_instance" := EnvValue(env, "MISSKEY_INSTANCE"),
      "misskey_token" := EnvValue(env, "MISSKEY_TOKEN"),
      "misskey_user_id" := EnvValue(env, "MISSKEY_USER_ID"),
      "mastodon_instance" := EnvValue(env, "MASTODON_INSTANCE"),
      "mastodon_token" := EnvValue(env, "MASTODON_TOKEN"),
      "fetch_limit" := JInt(fetchLimit),
      "crosspost_delay" := JInt(delay)];
  }

  /** `os.environ.get("CONFIG_FILE", "config.json")`. */
  function ConfigPath(env: map<string, string>): (r: string)
    ensures "CONFIG_FILE" in env ==> r == env["CONFIG_FILE"]
    ensures "CONFIG_FILE" !in env ==> r == "config.json"
  {
    if "CONFIG_FILE" in env then env["CONFIG_FILE"] else "config.json"
  }

  /** Some required field of `d` is unset. */
  predicate AnyMissing(d: Dict)
  {
    exists f :: f in RequiredFields && IsNone(d, f)
  }

  /** What the update loop leaves: every key of the file fills a key of `d` that is unset. */
  function Merged(d: Dict, file: Dict): (r: Dict)
    ensures r.Keys == d.Keys + file.Keys
    ensures forall k :: k in d && !IsNone(d, k) ==> r[k] == d[k]
  {
    map k | k in d.Keys + file.Keys :: if IsNone(d, k) && k in file then file[k] else d[k]
  }

  /** The part of `file` under the keys in `done`. */
  function Restrict(file: Dict, done: set<string>): Dict
  {
    map k | k in file.Keys * done :: file[k]
  }

  lemma MergedStep(d: Dict, file: Dict, done: set<string>, k: string)
    requires k in file && k !in done
    ensures Merged(d, Restrict(file, done + {k})) ==
      (var m := Merged(d, Restrict(file, done));
       if IsNone(m, k) then m[k := file[k]] else m)
  {
    var m := Merged(d, Restrict(file, done));
    assert IsNone(m, k) == IsNone(d, k);
  }

  /** The loop over `file_config.items()`. */
  method FillFromFile(d: Dict, file: Dict) returns (merged: Dict)
    ensures merged == Merged(d, file)
  {
    merged := d;
    var pending := file.Keys;
    assert Merged(d, Restrict(file, {})) == d;
    while pending != {}
      invariant pending <= file.Keys
      invariant merged == Merged(d, Restrict(file, file.Keys - pending))
      decreases pending
    {
      var k :| k in pending;
      MergedStep(d, file, file.Keys - pending, k);
      if IsNone(merged, k) {
        merged := merged[k := file[k]];
      }
      assert file.Keys - (pending - {k}) == (file.Keys - pending) + {k};
      pending := pending - {k};
    }
    assert Restrict(file, file.Keys - pending) == file;
  }

  /** A set value is never replaced by the file; an unset one is filled when the file has the key. */
  lemma MergedPrefersCurrent(d: Dict, file: Dict, k: string)
    ensures !IsNone(d, k) ==> k in Merged(d, file) && Merged(d, file)[k] == d[k]
    ensures IsNone(d, k) && k in file ==> k in Merged(d, file) && Merged(d, file)[k] == file[k]
    ensures IsNone(d, k) && k !in file ==> IsNone(Merged(d, file), k)
    ensures k in Merged(d, file) <==> k in d || k in file
  {
  }

  /**
   * The counts read from the environment always win: they are never unset,
   * so a `fetch_limit` or `crosspost_delay` in the configuration file has no effect.
   */
  lemma FileCountsIgnored(d: Dict, env: map<string, string>, fetchLimit: int, delay: int, file: Dict)
    requires FromEnv(d, env, fetchLimit, delay)
    ensures Lookup(Merged(d, file), "fetch_limit") == JInt(fetchLimit)
    ensures Lookup(Merged(d, file), "crosspost_delay") == JInt(delay)
  {
    MergedPrefersCurrent(d, file, "fetch_limit");
    MergedPrefersCurrent(d, file, "crosspost_delay");
  }

  /** The `missing_fields` comprehension over a list of fields. */
  function MissingFrom(fields: seq<string>, d: Dict): (r: seq<string>)
    ensures forall f :: f in r <==> f in fields && IsNone(d, f)
    ensures |r| <= |fields|
  {
    if fields == [] then []
    else
      var last := fields[|fields| - 1];
      MissingFrom(fields[..|fields| - 1], d) + (if IsNone(d, last) then [last] else [])
  }

  /** The missing fields keep the order of the list they are drawn from. */
  lemma {:induction false} MissingFromInOrder(fields: seq<string>, d: Dict, i: nat, j: nat)
    requires i < j < |fields| && IsNone(d, fields[i]) && IsNone(d, fields[j])
    ensures exists p, q ::
      0 <= p < q < |MissingFrom(fields, d)| && MissingFrom(fields, d)[p] == fields[i] && MissingFrom(fields, d)[q] == fields[j]
  {
    var n := |fields| - 1;
    var r, prior := MissingFrom(fields, d), MissingFrom(fields[..n], d);
    assert r == prior + (if IsNone(d, fields[n]) then [fields[n]] else []);
    if j == n {
      assert fields[..n][i] == fields[i];
      var p :| 0 <= p < |prior| && prior[p] == fields[i];
      assert 0 <= p < |prior| < |r| && r[p] == fields[i] && r[|prior|] == fields[j];
    } else {
      assert fields[..n][i] == fields[i] && fields[..n][j] == fields[j];
      MissingFromInOrder(fields[..n], d, i, j);
      var p, q :| 0 <= p < q < |prior| && prior[p] == fields[i] && prior[q] == fields[j];
      assert 0 <= p < q < |r| && r[p] == fields[i] && r[q] == fields[j];
    }
  }

  /** The `missing_fields` comprehension over `required_fields`. */
  function Missing(d: Dict): (r: seq<string>)
    ensures forall f :: f in r <==> f in RequiredFields && IsNone(d, f)
    ensures r == [] <==> !AnyMissing(d)
  {
    var missing := MissingFrom(RequiredFields, d);
    assert missing != [] ==> missing[0] in missing;
    missing
  }

  /** The required fields that neither the environment nor the configuration file sets. */
  predicate Unset(env: map<string, string>, files: map<string, Dict>, f: string)
  {
    EnvName(f) !in env && (ConfigPath(env) !in files || IsNone(files[ConfigPath(env)], f))
  }

  /** The dictionary once the configuration file has been consulted, if it was. */
  function Filled(d: Dict, env: map<string, string>, files: map<string, Dict>): (r: Dict)
    ensures d.Keys <= r.Keys
    ensures forall k :: k in d && !IsNone(d, k) ==> r[k] == d[k]
  {
    if AnyMissing(d) && ConfigPath(env) in files then Merged(d, files[ConfigPath(env)]) else d
  }

  /** The file is consulted exactly when an environment variable of a required field is unset. */
  lemma EnvMissing(d: Dict, env: map<string, string>, fetchLimit: int, delay: int)
    requires FromEnv(d, env, fetchLimit, delay)
    ensures AnyMissing(d) <==> exists f :: f in RequiredFields && EnvName(f) !in env
  {
  }

  /** Each required field after the merge: the environment's value, else the file's, else unset. */
  lemma FilledFields(d: Dict, env: map<string, string>, fetchLimit: int, delay: int, files: map<string, Dict>)
    requires FromEnv(d, env, fetchLimit, delay)
    ensures var filled := Filled(d, env, files);
      forall f :: f in RequiredFields ==>
        && (IsNone(filled, f) <==> Unset(env, files, f))
        && (!IsNone(filled, f) ==>
              filled[f] == if EnvName(f) in env then JString(env[EnvName(f)]) else files[ConfigPath(env)][f])
    ensures var filled := Filled(d, env, files);
      Lookup(filled, "fetch_limit") == JInt(fetchLimit) && Lookup(filled, "crosspost_delay") == JInt(delay)
    ensures Filled(d, env, files).Keys
      == d.Keys + (if AnyMissing(d) && ConfigPath(env) in files then files[ConfigPath(env)].Keys else {})
  {
    EnvMissing(d, env, fetchLimit, delay);
    if AnyMissing(d) && ConfigPath(env) in files {
      var file := files[ConfigPath(env)];
      FileCountsIgnored(d, env, fetchLimit, delay, file);
      forall f | f in RequiredFields {
        MergedPrefersCurrent(d, file, f);
      }
    }
  }

  /** Some required field's environment variable is unset, so the configuration file is opened. */
  predicate ConsultsFile(env: map<string, string>)
  {
    exists f :: f in RequiredFields && EnvName(f) !in env
  }

  /** The configuration file is opened and cannot be read. */
  predicate ConfigRaises(env: map<string, string>, unreadable: set<string>)
  {
    ConsultsFile(env) && ConfigPath(env) in unreadable
  }

  /** The keys the environment provides, and `since_id`, are all fields of `Config`. */
  lemma EnvKeysKnown(d: Dict, env: map<string, string>, fetchLimit: int, delay: int)
    requires FromEnv(d, env, fetchLimit, delay)
    ensures d.Keys + {"since_id"} <= ConfigFields
    ensures forall f :: f in RequiredFields ==> f != "since_id"
  {
  }

  /**
   * The part of `load_config` before validation: the dictionary read from the
   * environment (`fromEnv`), completed from the configuration file when a
   * required field is unset. `raised` is set when that file cannot be read.
   */
  method GatherConfig(env: map<string, string>, fetchLimit: int, delay: int,
                      files: map<string, Dict>, unreadable: set<string>)
    returns (d: Dict, paths: seq<string>, raised: bool, ghost fromEnv: Dict)
    ensures FromEnv(fromEnv, env, fetchLimit, delay)
    ensures paths == if ConsultsFile(env) then [ConfigPath(env)] else []
    ensures raised <==> ConfigRaises(env, unreadable)
    ensures !raised ==> d == Filled(fromEnv, env, files)
  {
    d := ReadEnvironment(env, fetchLimit, delay);
    fromEnv := d;
    EnvMissing(fromEnv, env, fetchLimit, delay);
    paths, raised := [], false;
    if AnyMissing(d) {
      var path := ConfigPath(env);
      paths := [path];
      if path in unreadable {
        raised := true;
        return;
      }
      if path in files {
        d := FillFromFile(d, files[path]);
      }
    }
  }

  /**
   * `load_config`, returning the outcome and the paths it opens in order.
   * `fetchLimit` and `delay` are `FETCH_LIMIT` and `CROSSPOST_DELAY` already parsed.
   */
  method LoadConfig(env: map<string, string>, fetchLimit: int, delay: int,
                    files: map<string, Dict>, unreadable: set<string>)
    returns (r: Loaded, paths: seq<string>)
    // an unreadable configuration file raises as soon as it is opened
    ensures ConfigRaises(env, unreadable) ==> r == Unreadable(ConfigPath(env)) && paths == [ConfigPath(env)]
    // otherwise the configuration file is opened only when the environment leaves a required field
    // unset, and the state file only once validation has passed
    ensures !ConfigRaises(env, unreadable) ==>
      paths == (if ConsultsFile(env) then [ConfigPath(env)] else []) + (if r.MissingConfig? then [] else [StateFile])
    // a field is reported missing exactly when neither source sets it, in the order of `required_fields`
    ensures !ConfigRaises(env, unreadable) ==>
      (r.MissingConfig? <==> exists f :: f in RequiredFields && Unset(env, files, f))
    ensures r.MissingConfig? ==> forall f :: f in r.fields <==> f in RequiredFields && Unset(env, files, f)
    ensures r.MissingConfig? ==>
      exists d :: FromEnv(d, env, fetchLimit, delay) && r.fields == Missing(Filled(d, env, files))
    // an unreadable state file raises once validation has passed
    ensures r.Unreadable? <==>
      ConfigRaises(env, unreadable) || (!r.MissingConfig? && StateFile in unreadable)
    ensures r.Unreadable? && !ConfigRaises(env, unreadable) ==> r.path == StateFile
    // the environment wins over the file, and the counts always come from the environment
    ensures r.Loaded? ==> forall f :: f in RequiredFields ==>
      f in r.config && !r.config[f].JNull? &&
      r.config[f] == (if EnvName(f) in env then JString(env[EnvName(f)]) else files[ConfigPath(env)][f])
    ensures r.Loaded? ==> r.config.Keys == ConfigFields
    ensures r.Loaded? ==>
      Lookup(r.config, "fetch_limit") == JInt(fetchLimit) && Lookup(r.config, "crosspost_delay") == JInt(delay)
    // the cursor comes from the state file alone
    ensures r.Loaded? ==>
      Lookup(r.config, "since_id") == (if StateFile in files then Lookup(files[StateFile], "since_id") else JNull)
    // a key of the configuration file that `Config` does not know is fatal, and only then
    ensures r.Rejected? <==>
      (!r.MissingConfig? && !r.Unreadable? && ConsultsFile(env) &&
       ConfigPath(env) in files && !(files[ConfigPath(env)].Keys <= ConfigFields))
  {
    var d, raised;
    ghost var fromEnv;
    d, paths, raised, fromEnv := GatherConfig(env, fetchLimit, delay, files, unreadable);
    if raised {
      r := Unreadable(ConfigPath(env));
      return;
    }
    FilledFields(fromEnv, env, fetchLimit, delay, files);
    EnvKeysKnown(fromEnv, env, fetchLimit, delay);
    var missing := Missing(d);
    if missing != [] {
      assert missing[0] in missing;
      r := MissingConfig(missing);
      assert FromEnv(fromEnv, env, fetchLimit, delay) && r.fields == Missing(Filled(fromEnv, env, files));
      return;
    }
    paths := paths + [StateFile];
    if StateFile in unreadable {
      r := Unreadable(StateFile);
      return;
    }
    var sinceId := if StateFile in files then Lookup(files[StateFile], "since_id") else JNull;
    d := d["since_id" := sinceId];
    if d.Keys <= ConfigFields {
      r := Loaded(d);
    } else {
      r := Rejected;
    }
  }
}

=== FILE: streaming.dfy ===
/**
 * The continuous mode: `MisskeyClient.stream_notes` polls the feed while the
 * client's `_running` flag is set and yields every note whose id differs from
 * its cursor; `main` crossposts each yielded note and then records its id in
 * `config.since_id` and in the state file. A transport error keeps the cursor
 * and retries after a long pause; a signal calls `stop_streaming`.
 *
 * The run is driven by a script of `Event`s: a signal, or the answer to one
 * fetch. A signal takes effect at the next test of the loop condition, which
 * is where the source observes it too (the loop over a fetched batch does not
 * look at the flag).
 */
module Streaming {
  import opened Wrappers
  import opened Notes
  import opened Ports
  import opened Attachments
  import opened Crossposting

  /** `get_user_notes(..., limit=10, ...)` in the stream. */
  const StreamLimit := 10
  /** Seconds between two polls. */
  const PollPause := 5
  /** Seconds to wait after a transport error. */
  const ErrorPause := 30

  datatype Event = Signal | Poll(fetched: Result<seq<Arrival>>)

  predicate EventDelivered(e: Event)
  {
    e.Poll? && e.fetched.Ok? ==> Delivered(e.fetched.value)
  }

  predicate ScriptDelivered(events: seq<Event>)
  {
    forall i :: 0 <= i < |events| ==> EventDelivered(events[i])
  }

  /** A note is yielded when there is no cursor or its id differs from the cursor. */
  predicate IsNew(cursor: Option<string>, id: string)
    ensures cursor == Some(id) ==> !IsNew(cursor, id)
    ensures cursor != Some(id) ==> IsNew(cursor, id)
  {
    cursor.None? || id != cursor.value
  }

  /** The generator's walk over one fetched batch: the cursor it ends with and the notes it yielded. */
  datatype Scan = Scan(cursor: Option<string>, yielded: seq<Arrival>)

  function Stream(cursor: Option<string>, batch: seq<Arrival>): (r: Scan)
    ensures |r.yielded| <= |batch|
    ensures r.yielded == [] ==> r.cursor == cursor
  {
    if batch == [] then Scan(cursor, [])
    else
      var n := |batch| - 1;
      var s := Stream(cursor, batch[..n]);
      if IsNew(s.cursor, batch[n].note.id) then Scan(Some(batch[n].note.id), s.yielded + [batch[n]]) else s
  }

  /** After a walk the cursor is the id of the last yielded note, or where it was if nothing was yielded. */
  lemma {:induction false} StreamCursorIsLastYield(cursor: Option<string>, batch: seq<Arrival>)
    ensures var s := Stream(cursor, batch);
      s.cursor == if s.yielded == [] then cursor else Some(s.yielded[|s.yielded| - 1].note.id)
  {
    if batch != [] {
      StreamCursorIsLastYield(cursor, batch[..|batch| - 1]);
    }
  }

  /** After a non-empty walk the cursor is the id of the batch's last note, yielded or not. */
  lemma {:induction false} StreamCursorIsLastNote(cursor: Option<string>, batch: seq<Arrival>)
    ensures Stream(cursor, batch).cursor == if batch == [] then cursor else Some(batch[|batch| - 1].note.id)
  {
    if batch != [] {
      var n := |batch| - 1;
      var s := Stream(cursor, batch[..n]);
      if !IsNew(s.cursor, batch[n].note.id) {
        assert s.cursor == Some(batch[n].note.id);
      }
    }
  }

  /** What a note is compared with: the previous note of the batch, or the cursor for the first one. */
  function Predecessor(cursor: Option<string>, batch: seq<Arrival>, i: nat): Option<string>
    requires i < |batch|
  {
    if i == 0 then cursor else Some(batch[i - 1].note.id)
  }

  /** Reference definition: the notes whose id differs from the one just before them. */
  function Keep(cursor: Option<string>, batch: seq<Arrival>): seq<Arrival>
  {
    if batch == [] then []
    else
      var n := |batch| - 1;
      Keep(cursor, batch[..n]) + (if IsNew(Predecessor(cursor, batch, n), batch[n].note.id) then [batch[n]] else [])
  }

  /**
   * The generator drops a note exactly when its id repeats the id just before
   * it (or the cursor, for the first note): deduplication looks one note back
   * and needs no order on ids.
   */
  lemma {:induction false} StreamYieldsKeep(cursor: Option<string>, batch: seq<Arrival>)
    ensures Stream(cursor, batch).yielded == Keep(cursor, batch)
  {
    if batch != [] {
      var n := |batch| - 1;
      StreamYieldsKeep(cursor, batch[..n]);
      StreamCursorIsLastNote(cursor, batch[..n]);
      if n > 0 {
        assert batch[..n][n - 1] == batch[n - 1];
      }
    }
  }

  /** Two notes yielded one after the other never share an id, and the first differs from the cursor. */
  lemma {:induction false} NoRepeatedNeighbours(cursor: Option<string>, batch: seq<Arrival>)
    ensures var y := Stream(cursor, batch).yielded;
      && (y != [] ==> IsNew(cursor, y[0].note.id))
      && forall k :: 0 < k < |y| ==> y[k - 1].note.id != y[k].note.id
  {
    if batch != [] {
      var n := |batch| - 1;
      NoRepeatedNeighbours(cursor, batch[..n]);
      StreamCursorIsLastYield(cursor, batch[..n]);
    }
  }

  /** Without an order on ids, a note that comes back after another one is yielded again. */
  lemma ReappearingNoteYieldedTwice(a: Arrival, b: Arrival)
    requires a.note.id != b.note.id
    ensures Stream(None, [a, b, a]).yielded == [a, b, a]
  {
    var batch := [a, b, a];
    assert batch[..2] == [a, b] && batch[..2][..1] == [a];
    assert Stream(None, batch[..2][..1]) == Scan(Some(a.note.id), [a]);
    assert Stream(None, batch[..2]) == Scan(Some(b.note.id), [a, b]);
  }

  /**
   * The state the continuous mode works on: the client's flag, the generator's
   * cursor, `config.since_id`, the id in the state file, and the calls so far.
   */
  datatype Engine = Engine(
    running: bool,
    cursor: Option<string>,
    sinceId: Option<string>,
    saved: Option<string>,
    log: seq<Effect>)

  /** What `main` does for the yielded notes: crosspost each one, then save its id. */
  function Observed(instance: string, delay: int, yielded: seq<Arrival>): (r: seq<Effect>)
    requires Delivered(yielded)
    ensures |r| >= |yielded|
    ensures yielded != [] ==> r[|r| - 1] == SaveState(yielded[|yielded| - 1].note.id)
  {
    if yielded == [] then []
    else
      var n := |yielded| - 1;
      Observed(instance, delay, yielded[..n])
      + NoteEffects(instance, delay, yielded[n]) + [SaveState(yielded[n].note.id)]
  }

  lemma {:induction false} YieldedDelivered(cursor: Option<string>, batch: seq<Arrival>)
    requires Delivered(batch)
    ensures Delivered(Stream(cursor, batch).yielded)
  {
    if batch != [] {
      YieldedDelivered(cursor, batch[..|batch| - 1]);
    }
  }

  /** The id recorded after a batch: the last yielded one, or the old value when nothing was yielded. */
  function LastYield(prior: Option<string>, yielded: seq<Arrival>): Option<string>
  {
    if yielded == [] then prior else Some(yielded[|yielded| - 1].note.id)
  }

  /** One turn of the `while self._running` loop, or a signal. */
  function Step(config: Config, s: Engine, e: Event): (r: Engine)
    requires EventDelivered(e)
    ensures s.log <= r.log
    ensures r.running <==> s.running && !e.Signal?
  {
    match e
    case Signal => s.(running := false)
    case Poll(Err) =>
      s.(log := s.log + [FetchNotes(config.userId, StreamLimit, SinceIdParam(s.cursor)), Sleep(ErrorPause)])
    case Poll(Ok(batch)) =>
      var scan := Stream(s.cursor, batch);
      YieldedDelivered(s.cursor, batch);
      s.(cursor := scan.cursor,
         sinceId := LastYield(s.sinceId, scan.yielded),
         saved := LastYield(s.saved, scan.yielded),
         log := s.log + [FetchNotes(config.userId, StreamLimit, SinceIdParam(s.cursor))]
                + Observed(Instance(config), config.crosspostDelay, scan.yielded) + [Sleep(PollPause)])
  }

  /** The loop over a script: it runs until the flag is cleared or the script is over. */
  function Run(config: Config, s: Engine, events: seq<Event>): (r: Engine)
    requires ScriptDelivered(events)
    ensures s.log <= r.log
    ensures r.running ==> s.running
    decreases |events|
  {
    if events == [] || !s.running then s
    else Run(config, Step(config, s, events[0]), events[1..])
  }

  /** The generator's cursor, `config.since_id` and the state file agree. */
  predicate InSync(s: Engine)
  {
    s.cursor == s.sinceId == s.saved
  }

  /** Each turn keeps the three records of the cursor equal. */
  lemma StepKeepsSync(config: Config, s: Engine, e: Event)
    requires EventDelivered(e) && InSync(s)
    ensures InSync(Step(config, s, e))
  {
    if e.Poll? && e.fetched.Ok? {
      StreamCursorIsLastYield(s.cursor, e.fetched.value);
    }
  }

  lemma {:induction false} RunKeepsSync(config: Config, s: Engine, events: seq<Event>)
    requires ScriptDelivered(events) && InSync(s)
    ensures InSync(Run(config, s, events))
    decreases |events|
  {
    if events != [] && s.running {
      StepKeepsSync(config, s, events[0]);
      RunKeepsSync(config, Step(config, s, events[0]), events[1..]);
    }
  }

  /** A failed fetch changes nothing but the log: the next fetch asks with the same `sinceId`. */
  lemma TransportErrorKeepsCursor(config: Config, s: Engine, next: Result<seq<Arrival>>)
    requires next.Ok? ==> Delivered(next.value)
    ensures var t := Step(config, s, Poll(Err));
      && t.(log := s.log) == s
      && Step(config, t, Poll(next)).log[|t.log|] == FetchNotes(config.userId, StreamLimit, SinceIdParam(s.cursor))
  {
  }

  /** The flag is still set after a run exactly when the script held no signal: nothing else clears it. */
  lemma {:induction false} RunStopsOnlyOnSignal(config: Config, s: Engine, events: seq<Event>)
    requires ScriptDelivered(events)
    ensures Run(config, s, events).running <==> s.running && Signal !in events
    decreases |events|
  {
    if events != [] && s.running {
      RunStopsOnlyOnSignal(config, Step(config, s, events[0]), events[1..]);
      assert events == [events[0]] + events[1..];
    }
  }

  /** Nothing after a signal is processed: no fetch, no crosspost, no save. */
  lemma {:induction false} NothingAfterSignal(config: Config, s: Engine, before: seq<Event>, after: seq<Event>)
    requires ScriptDelivered(before) && ScriptDelivered(after)
    ensures ScriptDelivered(before + [Signal] + after) && ScriptDelivered(before + [Signal])
    ensures Run(config, s, before + [Signal] + after) == Run(config, s, before + [Signal])
    decreases |before|
  {
    var long, short := before + [Signal] + after, before + [Signal];
    assert ScriptDelivered(long) by {
      forall i | 0 <= i < |long| ensures EventDelivered(long[i]) {
        if i > |before| { assert long[i] == after[i - |before| - 1]; }
      }
    }
    assert ScriptDelivered(short) by {
      forall i | 0 <= i < |short| ensures EventDelivered(short[i]) {
      }
    }
    if s.running {
      if before == [] {
        assert long[1..] == after && short[1..] == [];
      } else {
        assert long[1..] == before[1..] + [Signal] + after;
        assert short[1..] == before[1..] + [Signal];
        NothingAfterSignal(config, Step(config, s, before[0]), before[1..], after);
      }
    }
  }

  /** The ids saved to the state file, in order, taken from an effect trace. */
  function Saves(effects: seq<Effect>): seq<string>
  {
    if effects == [] then []
    else
      var n := |effects| - 1;
      Saves(effects[..n]) + (if effects[n].SaveState? then [effects[n].savedId] else [])
  }

  lemma {:induction false} SavesAppend(e1: seq<Effect>, e2: seq<Effect>)
    ensures Saves(e1 + e2) == Saves(e1) + Saves(e2)
  {
    if e2 != [] {
      var n := |e2| - 1;
      assert (e1 + e2)[..|e1| + n] == e1 + e2[..n];
      SavesAppend(e1, e2[..n]);
    } else {
      assert e1 + e2 == e1;
    }
  }

  lemma {:induction false} NoSaveWithoutSaveState(effects: seq<Effect>)
    requires forall k :: 0 <= k < |effects| ==> !effects[k].SaveState?
    ensures Saves(effects) == []
  {
    if effects != [] {
      NoSaveWithoutSaveState(effects[..|effects| - 1]);
    }
  }

  /** Crossposting a note never writes the state file. */
  lemma NoteSavesNothing(instance: string, delay: int, a: Arrival)
    requires WellFormed(a)
    ensures Saves(NoteEffects(instance, delay, a)) == []
  {
    if ShouldCrosspost(a.note) {
      var files := Files(a.note);
      var te := TransferEffects(instance, files, a.delivery.transfers);
      var st := [CreateStatus(StatusFor(a.note, UploadedIds(files, a.delivery.transfers)))];
      var pause: seq<Effect> := if a.delivery.status.Ok? then [Sleep(delay)] else [];
      assert NoteEffects(instance, delay, a) == te + st + pause;
      TransfersSaveNothing(instance, files, a.delivery.transfers);
      SavesAppend(te, st);
      SavesAppend(te + st, pause);
      NoSaveWithoutSaveState(st);
      NoSaveWithoutSaveState(pause);
    }
  }

  lemma {:induction false} TransfersSaveNothing(instance: string, files: seq<Attachment>, ts: seq<Transfer>)
    requires |ts| == |files|
    ensures Saves(TransferEffects(instance, files, ts)) == []
  {
    if files != [] {
      var n := |files| - 1;
      var pre, fe := TransferEffects(instance, files[..n], ts[..n]), FileEffects(instance, files[n], ts[n]);
      assert TransferEffects(instance, files, ts) == pre + fe;
      TransfersSaveNothing(instance, files[..n], ts[..n]);
      FileSavesNothing(instance, files[n], ts[n]);
      SavesAppend(pre, fe);
    }
  }

  lemma FileSavesNothing(instance: string, file: Attachment, t: Transfer)
    ensures Saves(FileEffects(instance, file, t)) == []
  {
    var fe := FileEffects(instance, file, t);
    assert forall k :: 0 <= k < |fe| ==> !fe[k].SaveState?;
    NoSaveWithoutSaveState(fe);
  }

  function Ids(yielded: seq<Arrival>): seq<string>
  {
    if yielded == [] then [] else Ids(yielded[..|yielded| - 1]) + [yielded[|yielded| - 1].note.id]
  }

  /**
   * Every yielded note has its id saved right after its crosspost, eligible or
   * not and whether or not its status was created; nothing else is saved.
   */
  lemma {:induction false} ObservedSavesEveryYield(instance: string, delay: int, yielded: seq<Arrival>)
    requires Delivered(yielded)
    ensures Saves(Observed(instance, delay, yielded)) == Ids(yielded)
  {
    if yielded != [] {
      var n := |yielded| - 1;
      var a := yielded[n];
      var pre, ne := Observed(instance, delay, yielded[..n]), NoteEffects(instance, delay, a);
      assert Observed(instance, delay, yielded) == pre + ne + [SaveState(a.note.id)];
      assert Ids(yielded) == Ids(yielded[..n]) + [a.note.id];
      ObservedSavesEveryYield(instance, delay, yielded[..n]);
      NoteSavesNothing(instance, delay, a);
      SavesThenSave(pre, ne, a.note.id);
    }
  }

  lemma SavesThenSave(pre: seq<Effect>, quiet: seq<Effect>, id: string)
    requires Saves(quiet) == []
    ensures Saves(pre + quiet + [SaveState(id)]) == Saves(pre) + [id]
  {
    SavesAppend(pre, quiet);
    SavesAppend(pre + quiet, [SaveState(id)]);
    assert Saves([SaveState(id)]) == [id] by {
      assert [SaveState(id)][..0] == [];
    }
  }

  /** The id in the state file is the last id written to it (or the loaded one, before any write). */
  predicate SavedIsLastWrite(initial: Option<string>, s: Engine)
  {
    var w := Saves(s.log);
    s.saved == if w == [] then initial else Some(w[|w| - 1])
  }

  /** A signal or a failed fetch writes nothing to the state file. */
  lemma QuietStepSavesNothing(config: Config, s: Engine, e: Event)
    requires EventDelivered(e) && !(e.Poll? && e.fetched.Ok?)
    ensures Saves(Step(config, s, e).log) == Saves(s.log)
  {
    if e.Poll? {
      var tail := [FetchNotes(config.userId, StreamLimit, SinceIdParam(s.cursor)), Sleep(ErrorPause)];
      SavesAppend(s.log, tail);
      NoSaveWithoutSaveState(tail);
    }
  }

  /** A successful fetch writes the ids of the yielded notes to the state file, in order, and nothing else. */
  lemma PollSavesYields(config: Config, s: Engine, batch: seq<Arrival>)
    requires Delivered(batch)
    ensures Saves(Step(config, s, Poll(Ok(batch))).log) == Saves(s.log) + Ids(Stream(s.cursor, batch).yielded)
  {
    var y := Stream(s.cursor, batch).yielded;
    YieldedDelivered(s.cursor, batch);
    var fetch := [FetchNotes(config.userId, StreamLimit, SinceIdParam(s.cursor))];
    var obs := Observed(Instance(config), config.crosspostDelay, y);
    assert Step(config, s, Poll(Ok(batch))).log == s.log + fetch + obs + [Sleep(PollPause)];
    ObservedSavesEveryYield(Instance(config), config.crosspostDelay, y);
    NoSaveWithoutSaveState(fetch);
    NoSaveWithoutSaveState([Sleep(PollPause)]);
    SavesBetween(s.log, fetch, obs, [Sleep(PollPause)]);
  }

  lemma SavesBetween(log: seq<Effect>, before: seq<Effect>, middle: seq<Effect>, after: seq<Effect>)
    requires Saves(before) == [] && Saves(after) == []
    ensures Saves(log + before + middle + after) == Saves(log) + Saves(middle)
  {
    SavesAppend(log, before);
    SavesAppend(log + before, middle);
    SavesAppend(log + before + middle, after);
  }

  /** Each turn keeps the state file equal to its last write. */
  lemma StepSavedIsLastWrite(config: Config, initial: Option<string>, s: Engine, e: Event)
    requires EventDelivered(e) && SavedIsLastWrite(initial, s)
    ensures SavedIsLastWrite(initial, Step(config, s, e))
  {
    if e.Poll? && e.fetched.Ok? {
      var y := Stream(s.cursor, e.fetched.value).yielded;
      PollSavesYields(config, s, e.fetched.value);
      IdsLast(y);
    } else {
      QuietStepSavesNothing(config, s, e);
    }
  }

  lemma IdsLast(yielded: seq<Arrival>)
    ensures |Ids(yielded)| == |yielded|
    ensures yielded != [] ==> Ids(yielded)[|yielded| - 1] == yielded[|yielded| - 1].note.id
  {
  }

  /** One more note of the batch: the walk either yields it and moves the cursor, or leaves everything as it was. */
  lemma StreamSnoc(cursor: Option<string>, batch: seq<Arrival>, i: nat)
    requires i < |batch|
    ensures var s := Stream(cursor, batch[..i]);
      Stream(cursor, batch[..i + 1])
        == if IsNew(s.cursor, batch[i].note.id) then Scan(Some(batch[i].note.id), s.yielded + [batch[i]]) else s
  {
    assert batch[..i + 1][..i] == batch[..i];
  }

  lemma ObservedSnoc(instance: string, delay: int, yielded: seq<Arrival>, a: Arrival)
    requires Delivered(yielded) && WellFormed(a)
    ensures Delivered(yielded + [a])
    ensures Observed(instance, delay, yielded + [a])
      == Observed(instance, delay, yielded) + (NoteEffects(instance, delay, a) + [SaveState(a.note.id)])
  {
    assert (yielded + [a])[..|yielded|] == yielded;
  }

  /** The loop of `main`, with the client whose flag `stop_streaming` clears. */
  class Daemon {
    const config: Config
    const client: MisskeyClient
    var cursor: Option<string>
    var sinceId: Option<string>
    var saved: Option<string>
    var log: seq<Effect>

    ghost predicate Valid()
    {
      client.instance == Instance(config)
    }

    function State(): Engine
      reads this, client
    {
      Engine(client.running, cursor, sinceId, saved, log)
    }

    /** Start-up: `config.since_id` was loaded from the state file, and the stream starts from it. */
    constructor (config: Config)
      ensures Valid() && this.config == config && fresh(client)
      ensures State() == Engine(true, config.sinceId, config.sinceId, config.sinceId, [])
    {
      this.config := config;
      client := new MisskeyClient(config.misskeyInstance);
      cursor, sinceId, saved, log := config.sinceId, config.sinceId, config.sinceId, [];
    }

    /** One fetch of `stream_notes` and the handling in `main` of every note it yields. */
    method PollFeed(fetched: Result<seq<Arrival>>)
      requires Valid() && (fetched.Ok? ==> Delivered(fetched.value))
      modifies this
      ensures State() == Step(config, old(State()), Poll(fetched))
    {
      log := log + [FetchNotes(config.userId, StreamLimit, SinceIdParam(cursor))];
      if fetched.Err? {
        // except RequestException: report, wait longer, retry with the same cursor
        log := log + [Sleep(ErrorPause)];
        return;
      }
      var batch := fetched.value;
      ghost var s0 := old(State());
      ghost var fetch := [FetchNotes(config.userId, StreamLimit, SinceIdParam(s0.cursor))];
      ghost var scan := Scan(s0.cursor, []);
      for i := 0 to |batch|
        invariant scan == Stream(s0.cursor, batch[..i]) && Delivered(scan.yielded)
        invariant cursor == scan.cursor
        invariant sinceId == LastYield(s0.sinceId, scan.yielded)
        invariant saved == LastYield(s0.saved, scan.yielded)
        invariant log == s0.log + fetch + Observed(Instance(config), config.crosspostDelay, scan.yielded)
      {
        StreamSnoc(s0.cursor, batch, i);
        var a := batch[i];
        if cursor.None? || a.note.id != cursor.value {
          ghost var before := log;
          ghost var seen := Observed(Instance(config), config.crosspostDelay, scan.yielded);
          ghost var handled := NoteEffects(Instance(config), config.crosspostDelay, a) + [SaveState(a.note.id)];
          ObservedSnoc(Instance(config), config.crosspostDelay, scan.yielded, a);
          Observe(a);
          Regroup(s0.log + fetch, seen, handled);
          scan := Scan(Some(a.note.id), scan.yielded + [a]);
        }
      }
      assert batch[..|batch|] == batch;
      log := log + [Sleep(PollPause)];
      assert State() == s0.(cursor := scan.cursor, sinceId := LastYield(s0.sinceId, scan.yielded),
        saved := LastYield(s0.saved, scan.yielded),
        log := s0.log + fetch + Observed(Instance(config), config.crosspostDelay, scan.yielded) + [Sleep(PollPause)]);
    }

    /**
     * `main`'s body for a yielded note: crosspost it, set `config.since_id`,
     * save the state; the generator then moves its cursor.
     */
    method Observe(a: Arrival)
      requires Valid() && WellFormed(a)
      modifies this
      ensures cursor == sinceId == saved == Some(a.note.id)
      ensures log == old(log) + (NoteEffects(Instance(config), config.crosspostDelay, a) + [SaveState(a.note.id)])
    {
      var calls := HandleNote(client.instance, config.crosspostDelay, a);
      log := log + calls;
      sinceId := Some(a.note.id);
      saved := Some(a.note.id);
      log := log + [SaveState(a.note.id)];
      // the generator resumes after the yield
      cursor := Some(a.note.id);
    }

    /** `while self._running`: the script's signals call `stop_streaming`, its answers feed `PollFeed`. */
    method Loop(events: seq<Event>)
      requires Valid() && ScriptDelivered(events)
      modifies this, client
      ensures State() == Run(config, old(State()), events)
    {
      var i := 0;
      while client.running && i < |events|
        invariant 0 <= i <= |events| && Valid()
        invariant Run(config, State(), events[i..]) == Run(config, old(State()), events)
      {
        assert events[i..][1..] == events[i + 1..];
        match events[i] {
          case Signal =>
            client.StopStreaming();
          case Poll(fetched) =>
            PollFeed(fetched);
        }
        i := i + 1;
      }
    }

    /** `main` after start-up: the loop, then `stop_streaming` in the `finally` clause. */
    method Listen(events: seq<Event>)
      requires Valid() && ScriptDelivered(events)
      modifies this, client
      ensures State() == Run(config, old(State()), events).(running := false)
    {
      Loop(events);
      client.StopStreaming();
    }
  }
}

=== FILE: wrappers.dfy ===
/** Optional values and the outcome of a call that can fail. */
module Wrappers {

  datatype Option<+T> = None | Some(value: T)

  /** The result of one network call: its value, or a failure (an exception in the source). */
  datatype Result<+T> = Ok(value: T) | Err
}
